=== FILE: README.md ===
# Cinema ticket service: a verified model of `TicketServiceImpl`

This project models the ticket purchase service of the cinema-ticket exercise
in Dafny. `purchaseTickets(accountId, requests...)` takes an account id and a
list of (ticket type, quantity) requests. The ticket types are ADULT, CHILD
and INFANT. The service runs five checks in order and stops at the first
refusal:

1. no request may have a negative quantity (the refusal names every
   offending type, in input order);
2. the adult and child seats, added to the service's seat counter, may not
   go above 20;
3. four composition rules about adult, child and infant entries, first
   match wins;
4. pricing: ADULT 20, CHILD 10, INFANT 0;
5. the account id must be positive.

When all five pass, the service pays the amount and then reserves the
seats on two collaborators.

Each check is a pure function here. The result is an `Outcome`: either
`Rejected(reason)` or `Completed(calls)`, where `calls` is the ordered list
of collaborator calls `[MakePayment(account, amount), ReserveSeat(account, seats)]`.
A refusal makes no call at all. The service's one mutable field, the seat
counter `totalSeatsToAllocate`, is passed in and returned as a `Service`
value, so its growth across calls is visible. The properties are stated
for any counter value. `Fresh` is a newly constructed service, whose counter
is 0.

Files:

- `ticket_types.dfy` holds the categories, requests, prices, refusal
  reasons, collaborator calls and outcomes.
- `grouping.dfy` holds the grouping by type. `Group` is the order-keeping
  filter that `Collectors.groupingBy` stores per key. It also holds the sums
  taken over a group and the presence flag.
- `ticket_service.dfy` holds one function for `purchaseTickets` and one
  for each private method except `groupTicketByTicketType`, which is
  `Group` in `grouping.dfy`. It also holds three definitions with no Java
  counterpart: `NewSeats` (the seats one call adds), `CompositionAdmissible`
  (the accepted combinations, stated directly) and `Replay` (a series of
  calls on one object).
- `purchase_properties.dfy` holds the properties of a purchase.
- `scoped_seats.dfy` holds the seat-counter leak (see Findings) and the
  purchase with the counter scoped to one call.

## Behaviour worth noting

These facts about the code follow from the model:

- An empty request list is accepted when the counter is at most 20. No
  composition rule fires, so a positive account pays 0 (`EmptyOrderPasses`).
- Orders whose entries all have quantity 0 can also be accepted, such as
  ADULT 0 with CHILD 0.
- The first composition rule ("at least one adult") and the fourth
  ("add N adults") never overlap, because the first needs no infant entry.
- The third rule (mismatch) shadows the fourth whenever a child entry is
  present.
- The seat counter is an object field, not a per-call value. Seats stay on
  it when a later check refuses the purchase (see Findings).
- With no negative quantity, the order of the requests never matters
  (`OrderOfRequestsIrrelevant`). With a negative quantity, the order fixes
  the order of the types in the refusal (`NegativeOrderIsReported`).

## Model

All source paths are relative to the repository root; `TicketServiceImpl.java` is
`src/main/java/uk/gov/dwp/uc/pairtest/TicketServiceImpl.java`.

| member | source | states |
|---|---|---|
| Grouping.Group | src/main/java/uk/gov/dwp/uc/pairtest/TicketServiceImpl.java:173-176 | a group is never longer than the request list |
| Grouping.GroupMembers | src/main/java/uk/gov/dwp/uc/pairtest/TicketServiceImpl.java:173-176 | the group of a type holds exactly the requests of that type |
| Grouping.GroupAppend | src/main/java/uk/gov/dwp/uc/pairtest/TicketServiceImpl.java:173-176 | grouping a joined list joins the groups: no request is lost, duplicated or reordered |
| Grouping.GroupsPartition | src/main/java/uk/gov/dwp/uc/pairtest/TicketServiceImpl.java:173-176 | every request lands in exactly one of the three groups |
| Grouping.PresentIff | src/main/java/uk/gov/dwp/uc/pairtest/TicketServiceImpl.java:121-138 | a type's presence flag is set exactly when some request of that type exists, whatever its quantity |
| Grouping.SeatSum | src/main/java/uk/gov/dwp/uc/pairtest/TicketServiceImpl.java:96-100 | the positive-quantity seat sum is never negative |
| Grouping.CountSnoc | src/main/java/uk/gov/dwp/uc/pairtest/TicketServiceImpl.java:121-138 | one more request adds its quantity to its own type's count only |
| Grouping.SumAppend | src/main/java/uk/gov/dwp/uc/pairtest/TicketServiceImpl.java:121-138 | a count over a joined list is the sum of the counts of its parts |
| Grouping.CountAppend | src/main/java/uk/gov/dwp/uc/pairtest/TicketServiceImpl.java:121-138 | counts and presence of a joined list come from its two parts |
| Grouping.CountSingle | src/main/java/uk/gov/dwp/uc/pairtest/TicketServiceImpl.java:121-138 | count and presence of a one-request list |
| Grouping.CountsOfPermutation | src/main/java/uk/gov/dwp/uc/pairtest/TicketServiceImpl.java:117-139 | any reordering of the requests leaves every count and presence flag unchanged |
| Grouping.ChargeIsPriceTimesSum | src/main/java/uk/gov/dwp/uc/pairtest/TicketServiceImpl.java:73-83 | pricing a group request by request equals price times the group's count |
| Grouping.SeatSumOfNonNegative | src/main/java/uk/gov/dwp/uc/pairtest/TicketServiceImpl.java:96-100 | without negatives, the positive-only seat sum equals the plain sum |
| Grouping.GroupKeepsNoNegative | src/main/java/uk/gov/dwp/uc/pairtest/TicketServiceImpl.java:173-176 | a group of a list without negatives has none either |
| TicketService.NegativeTypes | src/main/java/uk/gov/dwp/uc/pairtest/TicketServiceImpl.java:51-58 | the offending-type list is empty exactly when no quantity is negative, and is no longer than the input |
| TicketService.NegativeTypesMembers | src/main/java/uk/gov/dwp/uc/pairtest/TicketServiceImpl.java:51-58 | a type is listed exactly when some request of it is negative |
| TicketService.ValidateInputRequest | src/main/java/uk/gov/dwp/uc/pairtest/TicketServiceImpl.java:51-62 | passes exactly when no quantity is negative, otherwise refuses with a non-empty list of types |
| TicketService.NewSeats | src/main/java/uk/gov/dwp/uc/pairtest/TicketServiceImpl.java:93-102 | a call never adds a negative number of seats |
| TicketService.CheckMaxNoOfSeatsExceeds | src/main/java/uk/gov/dwp/uc/pairtest/TicketServiceImpl.java:93-108 | the counter never shrinks; the check passes exactly when the new counter is at most 20; a refusal carries a positive excess, and counter = 20 + excess |
| TicketService.ValidateTicketRequest | src/main/java/uk/gov/dwp/uc/pairtest/TicketServiceImpl.java:148-165 | passes exactly on the admissible combinations (stated directly); each refusal happens exactly under its rule's effective condition; "add N" carries N = infants − adults > 0 and needs no child entry |
| TicketService.IsAdultExistsInRequest | src/main/java/uk/gov/dwp/uc/pairtest/TicketServiceImpl.java:117-140 | passes exactly when the counts and the "some request of this type exists" flags, read off the requests directly, form an admissible combination; every refusal is one of the four composition reasons |
| TicketService.CalculateAmountToPay | src/main/java/uk/gov/dwp/uc/pairtest/TicketServiceImpl.java:70-85 | amount = 20 × adult count + 10 × child count |
| TicketService.PurchaseTickets | src/main/java/uk/gov/dwp/uc/pairtest/TicketServiceImpl.java:30-45 | the counter never shrinks; a completed purchase had a positive account, no negatives and counter ≤ 20, and made exactly a payment of the price followed by a reservation of the counter; an account refusal implies account ≤ 0 |
| TicketService.Replay | src/main/java/uk/gov/dwp/uc/pairtest/TicketServiceImpl.java:21-45 | over any series of calls on one object the counter never decreases |
| PurchaseProperties.NegativeTypesAppend | src/main/java/uk/gov/dwp/uc/pairtest/TicketServiceImpl.java:53-58 | the offending types of a joined list are the joined lists: input order is kept |
| PurchaseProperties.NegativeQuantityFailsFirst | src/main/java/uk/gov/dwp/uc/pairtest/TicketServiceImpl.java:31-33 | any negative quantity refuses before every other check, leaves the counter unchanged and calls nothing |
| PurchaseProperties.SeatsOfValidRequest | src/main/java/uk/gov/dwp/uc/pairtest/TicketServiceImpl.java:93-102 | without negatives, a call's seats are its adult plus child count, infants excluded, and all counts are non-negative |
| PurchaseProperties.SeatLimitCheck | src/main/java/uk/gov/dwp/uc/pairtest/TicketServiceImpl.java:93-108 | the counter ends at old value + adults + children; above 20 the refusal carries that total − 20 and nothing is called |
| PurchaseProperties.CompositionBeforeAccount | src/main/java/uk/gov/dwp/uc/pairtest/TicketServiceImpl.java:34-38 | a composition failure reports the composition reason for every account id, even an invalid one |
| PurchaseProperties.AccountCheckIsLast | src/main/java/uk/gov/dwp/uc/pairtest/TicketServiceImpl.java:34-39 | the account refusal happens exactly when every earlier check passed and account ≤ 0 |
| PurchaseProperties.PurchaseCompletes | src/main/java/uk/gov/dwp/uc/pairtest/TicketServiceImpl.java:30-45 | a purchase completes exactly when all five checks pass; it then pays 20·adults + 10·children, then reserves the counter |
| PurchaseProperties.ValidOrderOutcome | src/main/java/uk/gov/dwp/uc/pairtest/TicketServiceImpl.java:30-45 | after the input check, the outcome depends on the requests only through three counts and three presence flags |
| PurchaseProperties.OrderOfRequestsIrrelevant | src/main/java/uk/gov/dwp/uc/pairtest/TicketServiceImpl.java:117-139 | any reordering of a request list without negatives gives the same outcome and the same counter |
| PurchaseProperties.NegativeOrderIsReported | src/main/java/uk/gov/dwp/uc/pairtest/TicketServiceImpl.java:51-60 | for any counter and any two negative requests, either order is refused with the two types listed in that input order, and the counter is unchanged |
| PurchaseProperties.AmountMatchesPriceTable | src/main/java/uk/gov/dwp/uc/pairtest/TicketServiceImpl.java:70-85 | the grouped pricing equals the per-request price table with infants at 0 |
| PurchaseProperties.PricingBounds | src/main/java/uk/gov/dwp/uc/pairtest/TicketServiceImpl.java:70-102 | without negatives, 10 × seats ≤ amount ≤ 20 × seats |
| PurchaseProperties.InfantsAreFreeAndSeatless | src/main/java/uk/gov/dwp/uc/pairtest/TicketServiceImpl.java:70-102 | adding an infant request changes neither the seats nor the amount |
| PurchaseProperties.ZeroQuantityMarksPresence | src/main/java/uk/gov/dwp/uc/pairtest/TicketServiceImpl.java:121-138 | a quantity-0 request makes its type present and changes no count |
| PurchaseProperties.EmptyOrderPasses | src/main/java/uk/gov/dwp/uc/pairtest/TicketServiceImpl.java:151-162 | with no requests, a positive account and a counter of at most 20, the purchase pays 0 and reserves the counter as it stands |
| PurchaseProperties.SeatCounterGrowth | src/main/java/uk/gov/dwp/uc/pairtest/TicketServiceImpl.java:93-103 | the counter grows by the call's seats whenever the input check passes, even if a later check refuses |
| PurchaseProperties.AddedSeats | src/main/java/uk/gov/dwp/uc/pairtest/TicketServiceImpl.java:93-103 | the seats a series of calls adds is never negative |
| PurchaseProperties.ReplayAccumulates | src/main/java/uk/gov/dwp/uc/pairtest/TicketServiceImpl.java:93-103 | after a series of calls on one object the counter is its start value plus the seats of every call that passed the input check, refused or not |
| PurchaseProperties.AdultOrder | src/main/java/uk/gov/dwp/uc/pairtest/TicketServiceImpl.java:30-45 | the full outcome of an ADULT n order: over the limit, then n = 0 refused as "at least one adult", then the account check, else pay 20n and reserve the counter |
| PurchaseProperties.ChildOrder | src/main/java/uk/gov/dwp/uc/pairtest/TicketServiceImpl.java:30-45 | a CHILD n order is refused over the limit, else for the missing adult; its seats stay on the counter |
| PurchaseProperties.AdultOnlyOrder | src/main/java/uk/gov/dwp/uc/pairtest/TicketServiceImpl.java:151-152 | with adult entries only, the order is refused as "at least one adult" exactly when their count is 0 (within the limit) |
| PurchaseProperties.NoAdultOrder | src/main/java/uk/gov/dwp/uc/pairtest/TicketServiceImpl.java:153-154 | child or infant entries with no adult entry are refused for the missing adult (within the limit), whatever the account |
| PurchaseProperties.AdultChildOrder | src/main/java/uk/gov/dwp/uc/pairtest/TicketServiceImpl.java:151-161 | adult and child entries with no infant entry always pass composition, even when the adult count is 0 |
| PurchaseProperties.AdultInfantOrder | src/main/java/uk/gov/dwp/uc/pairtest/TicketServiceImpl.java:157-158 | adult and infant entries with no child entry: more infants than adults asks for exactly infants − adults more adults (within the limit) |
| PurchaseProperties.AllCategoriesOrder | src/main/java/uk/gov/dwp/uc/pairtest/TicketServiceImpl.java:155-156 | with all three types present, fewer adults than infants is the mismatch refusal (within the limit) |
| PurchaseProperties.NegativesReportedInOrder | src/main/java/uk/gov/dwp/uc/pairtest/TicketServiceImpl.java:51-60 | for any counter, CHILD −, ADULT +, INFANT − is refused naming CHILD then INFANT, and the counter is unchanged |
| ScopedSeats.ReservationIncludesEarlierCalls | src/main/java/uk/gov/dwp/uc/pairtest/TicketServiceImpl.java:21-41 | as written, a completed purchase reserves the earlier counter plus this call's adults and children |
| ScopedSeats.LeakReservesUnrequestedSeats | src/main/java/uk/gov/dwp/uc/pairtest/TicketServiceImpl.java:21-41 | as written, ADULT 5 then ADULT 3 on one object: the second pays 60 but reserves 8 |
| ScopedSeats.LeakRefusesValidOrder | src/main/java/uk/gov/dwp/uc/pairtest/TicketServiceImpl.java:93-106 | as written, a refused CHILD 15 leaves 15 on the counter, and a following ADULT 6 is refused as 1 over the limit |
| ScopedSeats.PurchaseScoped | src/main/java/uk/gov/dwp/uc/pairtest/TicketServiceImpl.java:30-45 | corrected purchase: when it completes, it reserves exactly this call's adult + child count (≤ 20) and pays 20·adults + 10·children |
| ScopedSeats.ScopedMatchesFreshService | src/main/java/uk/gov/dwp/uc/pairtest/TicketServiceImpl.java:30-45 | the corrected purchase equals the original on a new object, so every new-service property holds of it on every call |
| ScopedSeats.ScopedLimitIsPerOrder | src/main/java/uk/gov/dwp/uc/pairtest/TicketServiceImpl.java:93-106 | corrected: the purchase is refused for seats exactly when there is no negative quantity and this call's adult + child count is above 20, with the excess measured from that count |
| ScopedSeats.ScopedAdultsOnly | src/main/java/uk/gov/dwp/uc/pairtest/TicketServiceImpl.java:30-45 | corrected: ADULT n with 0 < n ≤ 20 on any positive account pays 20n and reserves n, whatever came before |
| ScopedSeats.ScopedFixesLeakExamples | src/main/java/uk/gov/dwp/uc/pairtest/TicketServiceImpl.java:30-45 | corrected: the second orders of both leak examples reserve 3 seats and 6 seats |

## Left out

- Java fixed-width arithmetic is not modelled. Quantities, counts and the seat
  counter are Java `int`, and the account id is a `Long`. The model uses
  unbounded integers, so the wrap-around of the sums at lines 76, 80, 98 and
  124-134 on huge quantities does not appear.
- Null arguments are not modelled. This covers a null account id (which
  throws while unboxing at line 37), a null request array and null
  requests.
- The exception message text is replaced by `Reason` tags. Each tag keeps
  the numbers its message reports: the offending types, the excess and N.
- The payment and reservation collaborators are not modelled; they are
  recorded as calls. A failure inside them, and the missing rollback of a
  payment when the reservation fails, are not modelled.
- The `HashMap` iteration order of the grouped map is not modelled. Every use
  of the map is a sum or a presence flag. `OrderOfRequestsIrrelevant` shows
  that reordering requests without negatives does not change the outcome.
- Concurrent calls on one service object are not modelled. They would race on
  the unsynchronised seat counter.
- `TicketTypeRequest` is not part of this model. It is assumed to expose its
  type (one of three values) and an `int` quantity.

## Findings

| source | as written | input that shows it | evidently intended | confidence | as-written member | corrected member |
|---|---|---|---|---|---|---|
| src/main/java/uk/gov/dwp/uc/pairtest/TicketServiceImpl.java:21-41 | the seat counter is an object field that is never reset; each call adds its seats to it and reserves the running total | on one object, `purchaseTickets(1, ADULT 5)` and then `purchaseTickets(1, ADULT 3)`: the second pays 60 but reserves 8 seats | the counter is per call; a purchase reserves only its own adult + child seats | high (not executed) | ScopedSeats.LeakReservesUnrequestedSeats | ScopedSeats.PurchaseScoped |
| src/main/java/uk/gov/dwp/uc/pairtest/TicketServiceImpl.java:93-106 | seats are added to the counter before the composition and account checks, and stay there when those checks refuse | on one object, `purchaseTickets(1, CHILD 15)` is refused (no adult), then `purchaseTickets(1, ADULT 6)` is refused as exceeding 20 by 1 | the seat limit applies to the current order only | high (not executed) | ScopedSeats.LeakRefusesValidOrder | ScopedSeats.ScopedLimitIsPerOrder |

The properties in `PurchaseProperties` hold for any counter value. Taking
the counter to be that of `Fresh` makes them hold for `PurchaseScoped` on
every call, by `ScopedMatchesFreshService`.

=== FILE: grouping.dfy ===
/** The grouping of requests by category and the sums taken over a group.
    The service groups its requests with Collectors.groupingBy into a map
    from category to the list of that category's requests; here a group is
    the order-preserving filter of the request sequence, and a category is a
    key of that map exactly when its group is non-empty.
 */
module Grouping {
  import opened TicketTypes

  /** The requests of category `c`, in input order. */
  function Group(reqs: seq<TicketRequest>, c: Category): (g: seq<TicketRequest>)
    ensures |g| <= |reqs|
    decreases |reqs|
  {
    if |reqs| == 0 then []
    else
      var t := reqs[|reqs| - 1];
      Group(reqs[..|reqs| - 1], c) + (if t.kind == c then [t] else [])
  }

  /** A group holds exactly the requests of its category. */
  lemma {:induction false} GroupMembers(reqs: seq<TicketRequest>, c: Category)
    ensures forall t :: t in Group(reqs, c) <==> t in reqs && t.kind == c
    decreases |reqs|
  {
    if |reqs| > 0 {
      var t := reqs[|reqs| - 1];
      assert reqs == reqs[..|reqs| - 1] + [t];
      GroupMembers(reqs[..|reqs| - 1], c);
    }
  }

  /** Sum of the quantities of `g`. */
  function Sum(g: seq<TicketRequest>): int
    decreases |g|
  {
    if |g| == 0 then 0 else Sum(g[..|g| - 1]) + g[|g| - 1].quantity
  }

  /** Sum of the positive quantities of `g`; zero and negative ones are skipped. */
  function SeatSum(g: seq<TicketRequest>): (r: int)
    ensures r >= 0
    decreases |g|
  {
    if |g| == 0 then 0
    else
      var q := g[|g| - 1].quantity;
      SeatSum(g[..|g| - 1]) + (if q > 0 then q else 0)
  }

  /** Sum of quantity times `price` over `g`, one request at a time. */
  function Charge(g: seq<TicketRequest>, price: int): int
    decreases |g|
  {
    if |g| == 0 then 0 else Charge(g[..|g| - 1], price) + g[|g| - 1].quantity * price
  }

  /** The total quantity requested for category `c`. */
  function Count(reqs: seq<TicketRequest>, c: Category): int
  {
    Sum(Group(reqs, c))
  }

  /** Category `c` is a key of the grouped map: some request names it,
      whatever its quantity. */
  predicate Present(reqs: seq<TicketRequest>, c: Category)
  {
    |Group(reqs, c)| > 0
  }

  /** A category is present exactly when some request names it, whatever
      that request's quantity. */
  lemma PresentIff(reqs: seq<TicketRequest>, c: Category)
    ensures Present(reqs, c) <==> exists i :: 0 <= i < |reqs| && reqs[i].kind == c
  {
    var g := Group(reqs, c);
    GroupMembers(reqs, c);
    assert |g| > 0 ==> g[0] in g;
    assert forall i :: 0 <= i < |reqs| && reqs[i].kind == c ==> reqs[i] in g;
  }

  /** Grouping commutes with concatenation: the group of a joined sequence is
      the join of the groups, so no request is lost, duplicated or reordered. */
  lemma {:induction false} GroupAppend(a: seq<TicketRequest>, b: seq<TicketRequest>, c: Category)
    ensures Group(a + b, c) == Group(a, c) + Group(b, c)
    decreases |b|
  {
    if |b| == 0 {
      assert a + b == a;
    } else {
      var t := b[|b| - 1];
      var b' := b[..|b| - 1];
      var last := if t.kind == c then [t] else [];
      assert (a + b)[..|a + b| - 1] == a + b';
      assert (a + b)[|a + b| - 1] == t;
      assert Group(a + b, c) == Group(a + b', c) + last;
      GroupAppend(a, b', c);
      assert Group(b, c) == Group(b', c) + last;
      assert (Group(a, c) + Group(b', c)) + last == Group(a, c) + (Group(b', c) + last);
    }
  }

  /** Every request lands in exactly one of the three groups. */
  lemma {:induction false} GroupsPartition(reqs: seq<TicketRequest>)
    ensures |Group(reqs, Adult)| + |Group(reqs, Child)| + |Group(reqs, Infant)| == |reqs|
    decreases |reqs|
  {
    if |reqs| > 0 {
      GroupsPartition(reqs[..|reqs| - 1]);
    }
  }

  /** Appending one request adds its quantity to its own category's count
      and leaves the other categories' counts alone. */
  lemma CountSnoc(reqs: seq<TicketRequest>, t: TicketRequest, c: Category)
    ensures Count(reqs + [t], c) == Count(reqs, c) + (if t.kind == c then t.quantity else 0)
  {
    var g := Group(reqs, c);
    assert (reqs + [t])[..|reqs|] == reqs;
    if t.kind == c {
      assert (g + [t])[..|g|] == g;
    } else {
      assert Group(reqs + [t], c) == g;
    }
  }

  /** Sums split over concatenation. */
  lemma {:induction false} SumAppend(a: seq<TicketRequest>, b: seq<TicketRequest>)
    ensures Sum(a + b) == Sum(a) + Sum(b)
    decreases |b|
  {
    if |b| == 0 {
      assert a + b == a;
    } else {
      var b' := b[..|b| - 1];
      assert (a + b)[..|a + b| - 1] == a + b';
      assert (a + b)[|a + b| - 1] == b[|b| - 1];
      SumAppend(a, b');
    }
  }

  /** Counts and presence of a joined sequence come from its two parts. */
  lemma CountAppend(a: seq<TicketRequest>, b: seq<TicketRequest>, c: Category)
    ensures Count(a + b, c) == Count(a, c) + Count(b, c)
    ensures Present(a + b, c) <==> Present(a, c) || Present(b, c)
  {
    GroupAppend(a, b, c);
    SumAppend(Group(a, c), Group(b, c));
  }

  /** The count and presence of a one-request sequence. */
  lemma CountSingle(t: TicketRequest, c: Category)
    ensures Count([t], c) == if t.kind == c then t.quantity else 0
    ensures Present([t], c) <==> t.kind == c
  {
    CountSnoc([], t, c);
    assert [] + [t] == [t];
    assert [t][0] == t;
  }

  /** Counts and presence depend only on the multiset of requests: any
      reordering of the requests leaves them unchanged. */
  lemma {:induction false} CountsOfPermutation(a: seq<TicketRequest>, b: seq<TicketRequest>, c: Category)
    requires multiset(a) == multiset(b)
    ensures Count(a, c) == Count(b, c)
    ensures Present(a, c) <==> Present(b, c)
    decreases |a|
  {
    if |a| == 0 {
      assert |b| == |multiset(b)| == 0;
    } else {
      var a', t := a[..|a| - 1], a[|a| - 1];
      assert a == a' + [t];
      assert t in multiset(b);
      var j :| 0 <= j < |b| && b[j] == t;
      var pre, post := b[..j], b[j + 1..];
      assert b == pre + [t] + post;
      var b' := pre + post;
      assert multiset(b') == multiset(b) - multiset{t};
      CountsOfPermutation(a', b', c);
      CountAppend(a', [t], c);
      CountAppend(pre + [t], post, c);
      CountAppend(pre, [t], c);
      CountAppend(pre, post, c);
      CountSingle(t, c);
    }
  }

  /** Pricing a group request by request is the price times the group's count. */
  lemma {:induction false} ChargeIsPriceTimesSum(g: seq<TicketRequest>, price: int)
    ensures Charge(g, price) == price * Sum(g)
    decreases |g|
  {
    if |g| > 0 {
      ChargeIsPriceTimesSum(g[..|g| - 1], price);
      assert price * Sum(g) == price * Sum(g[..|g| - 1]) + price * g[|g| - 1].quantity;
    }
  }

  /** With no negative quantity the positive-only seat sum is the plain sum. */
  lemma {:induction false} SeatSumOfNonNegative(g: seq<TicketRequest>)
    requires NoNegative(g)
    ensures SeatSum(g) == Sum(g)
    decreases |g|
  {
    if |g| > 0 {
      SeatSumOfNonNegative(g[..|g| - 1]);
    }
  }

  /** Each group of a request sequence without negatives has none either. */
  lemma GroupKeepsNoNegative(reqs: seq<TicketRequest>, c: Category)
    requires NoNegative(reqs)
    ensures NoNegative(Group(reqs, c))
  {
    var g := Group(reqs, c);
    GroupMembers(reqs, c);
    forall i | 0 <= i < |g|
      ensures g[i].quantity >= 0
    {
      assert g[i] in g;
      var j :| 0 <= j < |reqs| && reqs[j] == g[i];
    }
  }
}

=== FILE: purchase_properties.dfy ===
/** Properties of purchaseTickets: the order of the checks, what each
    refusal reports, the price and seat arithmetic, and how the seat counter
    of one service object moves across calls. They hold for any value of
    the seat counter unless a lemma names the service it starts from.
 */
module PurchaseProperties {
  import opened TicketTypes
  import opened Grouping
  import opened TicketService

  /** The list of offending categories is built request by request, so the
      list for a joined sequence is the join of the lists: input order is kept. */
  lemma {:induction false} NegativeTypesAppend(a: seq<TicketRequest>, b: seq<TicketRequest>)
    ensures NegativeTypes(a + b) == NegativeTypes(a) + NegativeTypes(b)
    decreases |b|
  {
    if |b| == 0 {
      assert a + b == a;
    } else {
      var b' := b[..|b| - 1];
      assert (a + b)[..|a + b| - 1] == a + b';
      NegativeTypesAppend(a, b');
    }
  }

  /** A negative quantity anywhere refuses the purchase before any other
      check: the counter is untouched and no collaborator is called. */
  lemma NegativeQuantityFailsFirst(s: Service, accountId: int, reqs: seq<TicketRequest>)
    requires exists i :: 0 <= i < |reqs| && reqs[i].quantity < 0
    ensures PurchaseTickets(s, accountId, reqs) == (s, Rejected(InvalidQuantity(NegativeTypes(reqs))))
    ensures Calls(PurchaseTickets(s, accountId, reqs).1) == []
  {
  }

  /** Without negatives, a call's seats are its adult and child counts, and
      every count is non-negative. */
  lemma SeatsOfValidRequest(reqs: seq<TicketRequest>)
    requires NoNegative(reqs)
    ensures NewSeats(reqs) == Count(reqs, Adult) + Count(reqs, Child)
    ensures Count(reqs, Adult) >= 0 && Count(reqs, Child) >= 0 && Count(reqs, Infant) >= 0
  {
    GroupKeepsNoNegative(reqs, Adult);
    GroupKeepsNoNegative(reqs, Child);
    GroupKeepsNoNegative(reqs, Infant);
    SeatSumOfNonNegative(Group(reqs, Adult));
    SeatSumOfNonNegative(Group(reqs, Child));
    SeatSumOfNonNegative(Group(reqs, Infant));
  }

  /** Without negatives the counter ends at its earlier value plus the adult
      and child count; above the limit the purchase is refused with the
      excess and calls nothing. */
  lemma SeatLimitCheck(s: Service, accountId: int, reqs: seq<TicketRequest>)
    requires NoNegative(reqs)
    ensures PurchaseTickets(s, accountId, reqs).0
      == Service(s.totalSeatsToAllocate + Count(reqs, Adult) + Count(reqs, Child))
    ensures s.totalSeatsToAllocate + Count(reqs, Adult) + Count(reqs, Child) > MaxLimit ==>
      PurchaseTickets(s, accountId, reqs).1
        == Rejected(LimitExceeded(s.totalSeatsToAllocate + Count(reqs, Adult) + Count(reqs, Child) - MaxLimit))
    ensures s.totalSeatsToAllocate + Count(reqs, Adult) + Count(reqs, Child) > MaxLimit ==>
      Calls(PurchaseTickets(s, accountId, reqs).1) == []
  {
    SeatsOfValidRequest(reqs);
  }

  /** A request that fails the composition rules reports the composition
      reason, whatever the account id, even an invalid one. */
  lemma CompositionBeforeAccount(s: Service, accountId: int, reqs: seq<TicketRequest>)
    requires NoNegative(reqs)
    requires s.totalSeatsToAllocate + NewSeats(reqs) <= MaxLimit
    requires IsAdultExistsInRequest(reqs).Reject?
    ensures PurchaseTickets(s, accountId, reqs).1 == Rejected(IsAdultExistsInRequest(reqs).reason)
    ensures IsAdultExistsInRequest(reqs).reason != InvalidAccount
  {
  }

  /** The account check is the last gate: it refuses exactly when every
      earlier check passed and the account id is not positive. */
  lemma AccountCheckIsLast(s: Service, accountId: int, reqs: seq<TicketRequest>)
    ensures PurchaseTickets(s, accountId, reqs).1 == Rejected(InvalidAccount) <==>
      && NoNegative(reqs)
      && s.totalSeatsToAllocate + NewSeats(reqs) <= MaxLimit
      && IsAdultExistsInRequest(reqs).Pass?
      && accountId <= 0
  {
  }

  /** A purchase completes exactly when all five checks pass, and then pays
      20 per adult and 10 per child and reserves the counter's earlier value
      plus the adult and child count, in that order. */
  lemma PurchaseCompletes(s: Service, accountId: int, reqs: seq<TicketRequest>)
    ensures PurchaseTickets(s, accountId, reqs).1.Completed? <==>
      && NoNegative(reqs)
      && s.totalSeatsToAllocate + Count(reqs, Adult) + Count(reqs, Child) <= MaxLimit
      && CompositionAdmissible(Count(reqs, Infant), Count(reqs, Adult),
                               Present(reqs, Adult), Present(reqs, Child), Present(reqs, Infant))
      && accountId > 0
    ensures PurchaseTickets(s, accountId, reqs).1.Completed? ==>
      PurchaseTickets(s, accountId, reqs).1.calls
        == [MakePayment(accountId, 20 * Count(reqs, Adult) + 10 * Count(reqs, Child)),
            ReserveSeat(accountId, s.totalSeatsToAllocate + Count(reqs, Adult) + Count(reqs, Child))]
  {
    if NoNegative(reqs) {
      SeatsOfValidRequest(reqs);
    }
  }

  /** Once the input check passes, the outcome depends on the request
      sequence only through the three counts and the three presence flags:
      the counter grows by the adult and child count, and the seat, the
      composition and the account checks follow in that order. */
  lemma ValidOrderOutcome(s: Service, accountId: int, reqs: seq<TicketRequest>)
    requires NoNegative(reqs)
    ensures var total := s.totalSeatsToAllocate + Count(reqs, Adult) + Count(reqs, Child);
      var composition := ValidateTicketRequest(Count(reqs, Infant), Count(reqs, Adult),
                                               Present(reqs, Adult), Present(reqs, Child), Present(reqs, Infant));
      PurchaseTickets(s, accountId, reqs) == (Service(total),
        if total > MaxLimit then Rejected(LimitExceeded(total - MaxLimit))
        else if composition.Reject? then Rejected(composition.reason)
        else if accountId <= 0 then Rejected(InvalidAccount)
        else Completed([MakePayment(accountId, AdultPrice * Count(reqs, Adult) + ChildPrice * Count(reqs, Child)),
                        ReserveSeat(accountId, total)]))
  {
    SeatsOfValidRequest(reqs);
  }

  /** The order of the requests does not matter once they pass the input
      check: the grouped map is visited in no fixed order, and every use of
      it is a sum or a presence flag. Any reordering `b` of a request
      sequence `a` without negatives gives the same outcome and counter. */
  lemma OrderOfRequestsIrrelevant(s: Service, accountId: int, a: seq<TicketRequest>, b: seq<TicketRequest>)
    requires NoNegative(a)
    requires multiset(a) == multiset(b)
    ensures PurchaseTickets(s, accountId, a) == PurchaseTickets(s, accountId, b)
  {
    forall i | 0 <= i < |b|
      ensures b[i].quantity >= 0
    {
      assert b[i] in multiset(a);
      var j :| 0 <= j < |a| && a[j] == b[i];
    }
    forall c
      ensures Count(a, c) == Count(b, c) && Present(a, c) == Present(b, c)
    {
      CountsOfPermutation(a, b, c);
    }
    ValidOrderOutcome(s, accountId, a);
    ValidOrderOutcome(s, accountId, b);
  }

  /** With negative quantities, order matters for the order of the reported
      categories: two negative requests, in either order, are refused with
      their categories listed in that order, and the counter is untouched. */
  lemma NegativeOrderIsReported(s: Service, accountId: int, x: TicketRequest, y: TicketRequest)
    requires x.quantity < 0 && y.quantity < 0
    ensures PurchaseTickets(s, accountId, [x, y]) == (s, Rejected(InvalidQuantity([x.kind, y.kind])))
    ensures PurchaseTickets(s, accountId, [y, x]) == (s, Rejected(InvalidQuantity([y.kind, x.kind])))
  {
    NegativeTypesAppend([x], [y]);
    NegativeTypesAppend([y], [x]);
    assert [x] + [y] == [x, y] && [y] + [x] == [y, x];
    assert [x][..0] == [] && [y][..0] == [];
    assert NegativeTypes([x]) == [x.kind] && NegativeTypes([y]) == [y.kind];
    assert NegativeTypes([x, y]) == [x.kind] + [y.kind] == [x.kind, y.kind];
    assert NegativeTypes([y, x]) == [y.kind] + [x.kind] == [y.kind, x.kind];
    assert [x, y][0].quantity < 0 && [y, x][0].quantity < 0;
    NegativeQuantityFailsFirst(s, accountId, [x, y]);
    NegativeQuantityFailsFirst(s, accountId, [y, x]);
  }

  /** The price table applied request by request, in input order. */
  function PriceEntries(reqs: seq<TicketRequest>): int
    decreases |reqs|
  {
    if |reqs| == 0 then 0
    else PriceEntries(reqs[..|reqs| - 1]) + Price(reqs[|reqs| - 1].kind) * reqs[|reqs| - 1].quantity
  }

  /** Pricing by groups gives the same amount as pricing each request by its
      category's price, infants at 0: the grouping changes nothing. */
  lemma {:induction false} AmountMatchesPriceTable(reqs: seq<TicketRequest>)
    ensures CalculateAmountToPay(reqs) == PriceEntries(reqs)
    decreases |reqs|
  {
    if |reqs| > 0 {
      var init := reqs[..|reqs| - 1];
      var t := reqs[|reqs| - 1];
      assert reqs == init + [t];
      AmountMatchesPriceTable(init);
      CountSnoc(init, t, Adult);
      CountSnoc(init, t, Child);
    }
  }

  /** With no negatives, the amount lies between 10 and 20 per seat: all
      children at one end, all adults at the other. */
  lemma PricingBounds(reqs: seq<TicketRequest>)
    requires NoNegative(reqs)
    ensures ChildPrice * NewSeats(reqs) <= CalculateAmountToPay(reqs) <= AdultPrice * NewSeats(reqs)
  {
    SeatsOfValidRequest(reqs);
  }

  /** An infant request, of any quantity, changes neither the seats nor
      the amount. */
  lemma InfantsAreFreeAndSeatless(reqs: seq<TicketRequest>, n: int)
    ensures NewSeats(reqs + [TicketRequest(Infant, n)]) == NewSeats(reqs)
    ensures CalculateAmountToPay(reqs + [TicketRequest(Infant, n)]) == CalculateAmountToPay(reqs)
  {
    var t := TicketRequest(Infant, n);
    assert (reqs + [t])[..|reqs|] == reqs;
    assert Group(reqs + [t], Adult) == Group(reqs, Adult);
    assert Group(reqs + [t], Child) == Group(reqs, Child);
  }

  /** A request of quantity 0 makes its category present without changing
      any count. */
  lemma ZeroQuantityMarksPresence(reqs: seq<TicketRequest>, c: Category)
    ensures Present(reqs + [TicketRequest(c, 0)], c)
    ensures forall d :: Count(reqs + [TicketRequest(c, 0)], d) == Count(reqs, d)
  {
    var t := TicketRequest(c, 0);
    assert (reqs + [t])[|reqs|] == t;
    forall d
      ensures Count(reqs + [t], d) == Count(reqs, d)
    {
      CountSnoc(reqs, t, d);
    }
  }

  /** With no requests no rule fires: a positive account pays 0 and the
      reservation is for whatever the counter already holds. */
  lemma EmptyOrderPasses(s: Service, accountId: int)
    requires accountId > 0
    requires s.totalSeatsToAllocate <= MaxLimit
    ensures PurchaseTickets(s, accountId, [])
      == (s, Completed([MakePayment(accountId, 0), ReserveSeat(accountId, s.totalSeatsToAllocate)]))
  {
  }

  /** The counter grows by the call's seats as soon as the input check
      passes, even when a later check refuses the purchase. */
  lemma SeatCounterGrowth(s: Service, accountId: int, reqs: seq<TicketRequest>)
    ensures PurchaseTickets(s, accountId, reqs).0.totalSeatsToAllocate
      == s.totalSeatsToAllocate + (if NoNegative(reqs) then NewSeats(reqs) else 0)
  {
  }

  /** The seats a series of orders adds to the counter: every order that
      passes the input check counts, refused or not. */
  function AddedSeats(orders: seq<Order>): (r: int)
    ensures r >= 0
    decreases |orders|
  {
    if |orders| == 0 then 0
    else
      var reqs := orders[0].requests;
      (if NoNegative(reqs) then NewSeats(reqs) else 0) + AddedSeats(orders[1..])
  }

  /** After a series of purchases on one object the counter holds the start
      value plus every accepted-input order's seats. */
  lemma {:induction false} ReplayAccumulates(s: Service, orders: seq<Order>)
    ensures Replay(s, orders).totalSeatsToAllocate == s.totalSeatsToAllocate + AddedSeats(orders)
    decreases |orders|
  {
    if |orders| > 0 {
      var s' := PurchaseTickets(s, orders[0].accountId, orders[0].requests).0;
      SeatCounterGrowth(s, orders[0].accountId, orders[0].requests);
      ReplayAccumulates(s', orders[1..]);
    }
  }

  /** An order of `n` adults alone: refused over the limit, refused with
      "at least one adult" when `n` is 0, then the account check, else it pays
      20 per adult and reserves the counter plus `n`. */
  lemma AdultOrder(s: Service, accountId: int, n: int)
    requires n >= 0
    ensures PurchaseTickets(s, accountId, [TicketRequest(Adult, n)]).0 == Service(s.totalSeatsToAllocate + n)
    ensures PurchaseTickets(s, accountId, [TicketRequest(Adult, n)]).1 ==
      if s.totalSeatsToAllocate + n > MaxLimit then Rejected(LimitExceeded(s.totalSeatsToAllocate + n - MaxLimit))
      else if n == 0 then Rejected(AdultRequired)
      else if accountId <= 0 then Rejected(InvalidAccount)
      else Completed([MakePayment(accountId, AdultPrice * n), ReserveSeat(accountId, s.totalSeatsToAllocate + n)])
  {
    var reqs := [TicketRequest(Adult, n)];
    assert NoNegative(reqs);
    CountSingle(reqs[0], Adult);
    CountSingle(reqs[0], Child);
    CountSingle(reqs[0], Infant);
    ValidOrderOutcome(s, accountId, reqs);
  }

  /** An order of `n` children alone: refused over the limit, otherwise
      refused for want of an adult; the counter keeps the children's seats. */
  lemma ChildOrder(s: Service, accountId: int, n: int)
    requires n >= 0
    ensures PurchaseTickets(s, accountId, [TicketRequest(Child, n)]).0 == Service(s.totalSeatsToAllocate + n)
    ensures PurchaseTickets(s, accountId, [TicketRequest(Child, n)]).1 ==
      if s.totalSeatsToAllocate + n > MaxLimit then Rejected(LimitExceeded(s.totalSeatsToAllocate + n - MaxLimit))
      else Rejected(AdultMissing)
  {
    var reqs := [TicketRequest(Child, n)];
    assert NoNegative(reqs);
    CountSingle(reqs[0], Adult);
    CountSingle(reqs[0], Child);
    CountSingle(reqs[0], Infant);
    ValidOrderOutcome(s, accountId, reqs);
  }

  /** Adult entries only: refused over the limit, refused with "at least
      one adult" when they add up to 0, then the account check, else it pays
      20 per adult and reserves the counter. */
  lemma AdultOnlyOrder(s: Service, accountId: int, reqs: seq<TicketRequest>)
    requires NoNegative(reqs)
    requires Present(reqs, Adult) && !Present(reqs, Child) && !Present(reqs, Infant)
    ensures var total := s.totalSeatsToAllocate + Count(reqs, Adult);
      PurchaseTickets(s, accountId, reqs).1 ==
        if total > MaxLimit then Rejected(LimitExceeded(total - MaxLimit))
        else if Count(reqs, Adult) == 0 then Rejected(AdultRequired)
        else if accountId <= 0 then Rejected(InvalidAccount)
        else Completed([MakePayment(accountId, AdultPrice * Count(reqs, Adult)), ReserveSeat(accountId, total)])
  {
    ValidOrderOutcome(s, accountId, reqs);
  }

  /** Child or infant entries with no adult entry: refused over the limit,
      otherwise refused for want of an adult, whatever the account. */
  lemma NoAdultOrder(s: Service, accountId: int, reqs: seq<TicketRequest>)
    requires NoNegative(reqs)
    requires !Present(reqs, Adult) && (Present(reqs, Child) || Present(reqs, Infant))
    ensures var total := s.totalSeatsToAllocate + Count(reqs, Child);
      PurchaseTickets(s, accountId, reqs).1 ==
        if total > MaxLimit then Rejected(LimitExceeded(total - MaxLimit))
        else Rejected(AdultMissing)
  {
    ValidOrderOutcome(s, accountId, reqs);
  }

  /** Adult and child entries and no infant entry: the composition rules
      always pass, whatever the adult count, so children are sold even when
      the adult entries add up to 0. */
  lemma AdultChildOrder(s: Service, accountId: int, reqs: seq<TicketRequest>)
    requires NoNegative(reqs)
    requires Present(reqs, Adult) && Present(reqs, Child) && !Present(reqs, Infant)
    ensures var total := s.totalSeatsToAllocate + Count(reqs, Adult) + Count(reqs, Child);
      PurchaseTickets(s, accountId, reqs).1 ==
        if total > MaxLimit then Rejected(LimitExceeded(total - MaxLimit))
        else if accountId <= 0 then Rejected(InvalidAccount)
        else Completed([MakePayment(accountId, AdultPrice * Count(reqs, Adult) + ChildPrice * Count(reqs, Child)),
                        ReserveSeat(accountId, total)])
  {
    ValidOrderOutcome(s, accountId, reqs);
  }

  /** Adult and infant entries and no child entry: more infants than adults
      asks for exactly the missing adults; infants take no seat. */
  lemma AdultInfantOrder(s: Service, accountId: int, reqs: seq<TicketRequest>)
    requires NoNegative(reqs)
    requires Present(reqs, Adult) && !Present(reqs, Child) && Present(reqs, Infant)
    ensures var total := s.totalSeatsToAllocate + Count(reqs, Adult);
      PurchaseTickets(s, accountId, reqs).1 ==
        if total > MaxLimit then Rejected(LimitExceeded(total - MaxLimit))
        else if Count(reqs, Infant) > Count(reqs, Adult) then Rejected(AddAdults(Count(reqs, Infant) - Count(reqs, Adult)))
        else if accountId <= 0 then Rejected(InvalidAccount)
        else Completed([MakePayment(accountId, AdultPrice * Count(reqs, Adult)), ReserveSeat(accountId, total)])
  {
    ValidOrderOutcome(s, accountId, reqs);
  }

  /** Entries of all three categories: fewer adults than infants is the
      mismatch refusal, which shadows the "add N adults" rule. */
  lemma AllCategoriesOrder(s: Service, accountId: int, reqs: seq<TicketRequest>)
    requires NoNegative(reqs)
    requires Present(reqs, Adult) && Present(reqs, Child) && Present(reqs, Infant)
    ensures var total := s.totalSeatsToAllocate + Count(reqs, Adult) + Count(reqs, Child);
      PurchaseTickets(s, accountId, reqs).1 ==
        if total > MaxLimit then Rejected(LimitExceeded(total - MaxLimit))
        else if Count(reqs, Adult) < Count(reqs, Infant) then Rejected(InfantAdultMismatch)
        else if accountId <= 0 then Rejected(InvalidAccount)
        else Completed([MakePayment(accountId, AdultPrice * Count(reqs, Adult) + ChildPrice * Count(reqs, Child)),
                        ReserveSeat(accountId, total)])
  {
    ValidOrderOutcome(s, accountId, reqs);
  }

  /** Negative entries are reported by category in input order. */
  lemma NegativesReportedInOrder(s: Service, accountId: int, p: int, q: int, r: int)
    requires p < 0 && q >= 0 && r < 0
    ensures PurchaseTickets(s, accountId,
                            [TicketRequest(Child, p), TicketRequest(Adult, q), TicketRequest(Infant, r)])
      == (s, Rejected(InvalidQuantity([Child, Infant])))
  {
    var reqs := [TicketRequest(Child, p), TicketRequest(Adult, q), TicketRequest(Infant, r)];
    assert reqs == [reqs[0]] + [reqs[1]] + [reqs[2]];
    NegativeTypesAppend([reqs[0]] + [reqs[1]], [reqs[2]]);
    NegativeTypesAppend([reqs[0]], [reqs[1]]);
    assert [reqs[0]][..0] == [] && [reqs[1]][..0] == [] && [reqs[2]][..0] == [];
    assert NegativeTypes([reqs[0]]) == [Child] && NegativeTypes([reqs[1]]) == [] && NegativeTypes([reqs[2]]) == [Infant];
    assert NegativeTypes(reqs) == [Child, Infant];
    assert reqs[0].quantity < 0;
    NegativeQuantityFailsFirst(s, accountId, reqs);
  }
}

=== FILE: scoped_seats.dfy ===
/** The seat counter of TicketServiceImpl is an object field that is never
    reset, so the seats of every earlier call on the same object (refused
    calls included) are added to the current one: a later call can be
    refused for seats it never asked for, or reserve more seats than it
    requested. This module shows the effect on the service as written and
    gives the purchase with the counter scoped to one call, whose
    reservation is always this call's own adult and child count.
 */
module ScopedSeats {
  import opened TicketTypes
  import opened Grouping
  import opened TicketService
  import opened PurchaseProperties

  /** As written: a completed purchase reserves the counter's earlier value
      plus this call's adult and child count. */
  lemma ReservationIncludesEarlierCalls(s: Service, accountId: int, reqs: seq<TicketRequest>)
    requires PurchaseTickets(s, accountId, reqs).1.Completed?
    ensures PurchaseTickets(s, accountId, reqs).1.calls[1]
      == ReserveSeat(accountId, s.totalSeatsToAllocate + Count(reqs, Adult) + Count(reqs, Child))
  {
    SeatsOfValidRequest(reqs);
  }

  /** As written: after an order for 5 adults, an order for 3 adults on the
      same object pays for 3 but reserves 8 seats. */
  lemma LeakReservesUnrequestedSeats()
    ensures PurchaseTickets(Fresh, 1, [TicketRequest(Adult, 5)])
      == (Service(5), Completed([MakePayment(1, 100), ReserveSeat(1, 5)]))
    ensures PurchaseTickets(Service(5), 1, [TicketRequest(Adult, 3)]).1
      == Completed([MakePayment(1, 60), ReserveSeat(1, 8)])
  {
    AdultOrder(Fresh, 1, 5);
    AdultOrder(Service(5), 1, 3);
  }

  /** As written: an order for 15 children is refused for want of an adult,
      yet its seats stay on the counter, so a valid order for 6 adults on
      the same object is then refused as 1 over the limit. */
  lemma LeakRefusesValidOrder()
    ensures PurchaseTickets(Fresh, 1, [TicketRequest(Child, 15)]) == (Service(15), Rejected(AdultMissing))
    ensures PurchaseTickets(Service(15), 1, [TicketRequest(Adult, 6)]).1 == Rejected(LimitExceeded(1))
  {
    ChildOrder(Fresh, 1, 15);
    AdultOrder(Service(15), 1, 6);
  }

  /** The corrected purchase: the same checks in the same order, with the
      seat total computed afresh for this call alone. It completes only for a
      valid order and then pays for, and reserves, exactly the adult and child
      tickets this call requested, never more than the limit. */
  function PurchaseScoped(accountId: int, reqs: seq<TicketRequest>): (o: Outcome)
    ensures o.Completed? ==>
      && accountId > 0
      && NoNegative(reqs)
      && Count(reqs, Adult) + Count(reqs, Child) <= MaxLimit
      && o.calls == [MakePayment(accountId, AdultPrice * Count(reqs, Adult) + ChildPrice * Count(reqs, Child)),
                     ReserveSeat(accountId, Count(reqs, Adult) + Count(reqs, Child))]
  {
    match ValidateInputRequest(reqs)
    case Reject(reason) => Rejected(reason)
    case Pass =>
      SeatsOfValidRequest(reqs);
      var seats := NewSeats(reqs);
      if seats > MaxLimit then Rejected(LimitExceeded(seats - MaxLimit))
      else
        match IsAdultExistsInRequest(reqs)
        case Reject(reason) => Rejected(reason)
        case Pass =>
          if accountId <= 0 then Rejected(InvalidAccount)
          else Completed([MakePayment(accountId, CalculateAmountToPay(reqs)), ReserveSeat(accountId, seats)])
  }

  /** The corrected purchase behaves like the service as written on a newly
      constructed object, so every property stated for a new service holds
      of it on every call. */
  lemma ScopedMatchesFreshService(accountId: int, reqs: seq<TicketRequest>)
    ensures PurchaseScoped(accountId, reqs) == PurchaseTickets(Fresh, accountId, reqs).1
  {
    if NoNegative(reqs) {
      SeatsOfValidRequest(reqs);
      ValidOrderOutcome(Fresh, accountId, reqs);
    }
  }

  /** Under the corrected purchase the seat limit applies to the current
      order alone: it is refused for seats exactly when this call's own adult
      and child count is above the limit, and the excess is measured from
      that count. */
  lemma ScopedLimitIsPerOrder(accountId: int, reqs: seq<TicketRequest>)
    ensures PurchaseScoped(accountId, reqs).Rejected? && PurchaseScoped(accountId, reqs).reason.LimitExceeded?
      <==> NoNegative(reqs) && Count(reqs, Adult) + Count(reqs, Child) > MaxLimit
    ensures NoNegative(reqs) && Count(reqs, Adult) + Count(reqs, Child) > MaxLimit ==>
      PurchaseScoped(accountId, reqs) == Rejected(LimitExceeded(Count(reqs, Adult) + Count(reqs, Child) - MaxLimit))
  {
    ScopedMatchesFreshService(accountId, reqs);
    if NoNegative(reqs) {
      ValidOrderOutcome(Fresh, accountId, reqs);
    }
  }

  /** The second orders of the two leak examples, under the corrected
      purchase: 3 adults reserve 3 seats, and 6 adults are accepted. */
  lemma ScopedFixesLeakExamples()
    ensures PurchaseScoped(1, [TicketRequest(Adult, 3)]) == Completed([MakePayment(1, 60), ReserveSeat(1, 3)])
    ensures PurchaseScoped(1, [TicketRequest(Adult, 6)]) == Completed([MakePayment(1, 120), ReserveSeat(1, 6)])
  {
    ScopedAdultsOnly(1, 3);
    ScopedAdultsOnly(1, 6);
  }

  /** Under the corrected purchase an order for `n` adults, within the
      limit and on a valid account, pays for and reserves exactly `n`. */
  lemma ScopedAdultsOnly(accountId: int, n: int)
    requires accountId > 0
    requires 0 < n <= MaxLimit
    ensures PurchaseScoped(accountId, [TicketRequest(Adult, n)])
      == Completed([MakePayment(accountId, AdultPrice * n), ReserveSeat(accountId, n)])
  {
    var an := [TicketRequest(Adult, n)];
    assert NoNegative(an);
    CountSingle(an[0], Adult);
    CountSingle(an[0], Child);
    CountSingle(an[0], Infant);
    ScopedMatchesFreshService(accountId, an);
    PurchaseCompletes(Fresh, accountId, an);
  }
}

=== FILE: ticket_service.dfy ===
/** TicketServiceImpl: the validation and pricing steps of a purchase and
    purchaseTickets itself, which runs them in order and stops at the first
    refusal. The service object's one mutable field, the seat counter, is
    passed in and handed back explicitly as a `Service` value.
 */
module TicketService {
  import opened TicketTypes
  import opened Grouping

  /** The state of one TicketServiceImpl object: its seat counter, which
      starts at 0 and is never reset. */
  datatype Service = Service(totalSeatsToAllocate: int)

  /** A newly constructed service. */
  const Fresh: Service := Service(0)

  /** The categories of the negative requests, in input order; this is the
      list the input check reports. */
  function NegativeTypes(reqs: seq<TicketRequest>): (r: seq<Category>)
    ensures |r| <= |reqs|
    ensures r == [] <==> NoNegative(reqs)
    decreases |reqs|
  {
    if |reqs| == 0 then []
    else
      var t := reqs[|reqs| - 1];
      var init := reqs[..|reqs| - 1];
      assert forall i :: 0 <= i < |init| ==> init[i] == reqs[i];
      NegativeTypes(init) + (if t.quantity < 0 then [t.kind] else [])
  }

  /** A category is listed exactly when some request of it is negative. */
  lemma {:induction false} NegativeTypesMembers(reqs: seq<TicketRequest>)
    ensures forall c :: c in NegativeTypes(reqs) <==>
      exists i :: 0 <= i < |reqs| && reqs[i].kind == c && reqs[i].quantity < 0
    decreases |reqs|
  {
    if |reqs| > 0 {
      var init := reqs[..|reqs| - 1];
      assert forall i :: 0 <= i < |init| ==> init[i] == reqs[i];
      NegativeTypesMembers(init);
    }
  }

  /** Step 1: refuse any negative quantity, naming every offending category. */
  function ValidateInputRequest(reqs: seq<TicketRequest>): (r: Check)
    ensures r.Pass? <==> NoNegative(reqs)
    ensures r.Reject? ==> r.reason.InvalidQuantity? && 0 < |r.reason.types| <= |reqs|
  {
    var bad := NegativeTypes(reqs);
    if bad == [] then Pass else Reject(InvalidQuantity(bad))
  }

  /** The seats one call adds to the counter: the positive adult and child
      quantities. Infants take no seat. */
  function NewSeats(reqs: seq<TicketRequest>): (r: int)
    ensures r >= 0
  {
    SeatSum(Group(reqs, Adult)) + SeatSum(Group(reqs, Child))
  }

  /** Step 2: add this call's seats to the service's counter, then refuse
      if the counter is above the limit. The counter keeps its new value
      whether or not the check passes. */
  function CheckMaxNoOfSeatsExceeds(s: Service, reqs: seq<TicketRequest>): (r: (Service, Check))
    ensures r.0.totalSeatsToAllocate >= s.totalSeatsToAllocate
    ensures r.1.Pass? <==> r.0.totalSeatsToAllocate <= MaxLimit
    ensures r.1.Reject? ==>
      && r.1.reason.LimitExceeded?
      && r.1.reason.exceededBy > 0
      && r.0.totalSeatsToAllocate == MaxLimit + r.1.reason.exceededBy
  {
    var total := s.totalSeatsToAllocate + NewSeats(reqs);
    (Service(total), if total > MaxLimit then Reject(LimitExceeded(total - MaxLimit)) else Pass)
  }

  /** The combinations of categories and counts the composition rules let
      through, stated directly rather than as a chain of refusals: with no
      adult entry there may be no entry at all; with adult entries there must
      be a positive adult count or another category; and when infants are
      present they may not outnumber the adults. */
  predicate CompositionAdmissible(infantCount: int, adultCount: int,
                                  isAdult: bool, isChild: bool, isInfant: bool)
  {
    && (isAdult || (!isChild && !isInfant))
    && (isAdult ==> adultCount > 0 || isChild || isInfant)
    && (isAdult && isInfant ==> infantCount <= adultCount)
  }

  /** Step 3: the four composition rules, tried in order, first match wins.
      Each refusal happens exactly under the condition stated, the earlier
      rules' conditions already excluded. */
  function ValidateTicketRequest(infantCount: int, adultCount: int,
                                 isAdult: bool, isChild: bool, isInfant: bool): (r: Check)
    ensures r.Pass? <==> CompositionAdmissible(infantCount, adultCount, isAdult, isChild, isInfant)
    ensures r == Reject(AdultRequired) <==> isAdult && adultCount <= 0 && !isChild && !isInfant
    ensures r == Reject(AdultMissing) <==> !isAdult && (isChild || isInfant)
    ensures r == Reject(InfantAdultMismatch) <==> isAdult && isChild && isInfant && adultCount < infantCount
    ensures r.Reject? && r.reason.AddAdults? <==> isAdult && !isChild && isInfant && infantCount > adultCount
    ensures r.Reject? && r.reason.AddAdults? ==> r.reason.n == infantCount - adultCount && r.reason.n > 0
  {
    if isAdult && adultCount <= 0 && !isChild && !isInfant then Reject(AdultRequired)
    else if !isAdult && (isChild || isInfant) then Reject(AdultMissing)
    else if isAdult && isChild && isInfant && adultCount < infantCount then Reject(InfantAdultMismatch)
    else if isAdult && isInfant && infantCount > adultCount then Reject(AddAdults(infantCount - adultCount))
    else Pass
  }

  /** Step 3 on a request sequence: per-category counts, and presence flags
      set by any request of the category, whatever its quantity. It passes
      exactly when the combination of requested categories is admissible,
      and every refusal is one of the four composition reasons. */
  function IsAdultExistsInRequest(reqs: seq<TicketRequest>): (r: Check)
    ensures r.Pass? <==> CompositionAdmissible(
      Count(reqs, Infant), Count(reqs, Adult),
      exists i :: 0 <= i < |reqs| && reqs[i].kind == Adult,
      exists i :: 0 <= i < |reqs| && reqs[i].kind == Child,
      exists i :: 0 <= i < |reqs| && reqs[i].kind == Infant)
    ensures r.Reject? ==>
      r.reason.AdultRequired? || r.reason.AdultMissing? || r.reason.InfantAdultMismatch? || r.reason.AddAdults?
  {
    PresentIff(reqs, Adult);
    PresentIff(reqs, Child);
    PresentIff(reqs, Infant);
    ValidateTicketRequest(Count(reqs, Infant), Count(reqs, Adult),
                          Present(reqs, Adult), Present(reqs, Child), Present(reqs, Infant))
  }

  /** Step 4: the amount to pay, priced group by group and request by request. */
  function CalculateAmountToPay(reqs: seq<TicketRequest>): (r: int)
    ensures r == AdultPrice * Count(reqs, Adult) + ChildPrice * Count(reqs, Child)
  {
    ChargeIsPriceTimesSum(Group(reqs, Adult), AdultPrice);
    ChargeIsPriceTimesSum(Group(reqs, Child), ChildPrice);
    Charge(Group(reqs, Adult), AdultPrice) + Charge(Group(reqs, Child), ChildPrice)
  }

  /** purchaseTickets: input check, seat check, composition check, pricing,
      account check, then one payment and one reservation. The returned
      service carries the seat counter as the call leaves it. */
  function PurchaseTickets(s: Service, accountId: int, reqs: seq<TicketRequest>): (r: (Service, Outcome))
    ensures r.0.totalSeatsToAllocate >= s.totalSeatsToAllocate
    ensures r.1.Completed? ==>
      && accountId > 0
      && NoNegative(reqs)
      && r.0.totalSeatsToAllocate <= MaxLimit
      && r.1.calls == [MakePayment(accountId, AdultPrice * Count(reqs, Adult) + ChildPrice * Count(reqs, Child)),
                       ReserveSeat(accountId, r.0.totalSeatsToAllocate)]
    ensures r.1 == Rejected(InvalidAccount) ==> accountId <= 0
  {
    match ValidateInputRequest(reqs)
    case Reject(reason) => (s, Rejected(reason))
    case Pass =>
      var seatStep := CheckMaxNoOfSeatsExceeds(s, reqs);
      var s' := seatStep.0;
      if seatStep.1.Reject? then (s', Rejected(seatStep.1.reason))
      else
        match IsAdultExistsInRequest(reqs)
        case Reject(reason) => (s', Rejected(reason))
        case Pass =>
          var amount := CalculateAmountToPay(reqs);
          if accountId <= 0 then (s', Rejected(InvalidAccount))
          else (s', Completed([MakePayment(accountId, amount), ReserveSeat(accountId, s'.totalSeatsToAllocate)]))
  }

  /** One purchase made on a service object. */
  datatype Order = Order(accountId: int, requests: seq<TicketRequest>)

  /** The service after a series of purchases on the same object. */
  function Replay(s: Service, orders: seq<Order>): (r: Service)
    ensures r.totalSeatsToAllocate >= s.totalSeatsToAllocate
    decreases |orders|
  {
    if |orders| == 0 then s
    else Replay(PurchaseTickets(s, orders[0].accountId, orders[0].requests).0, orders[1..])
  }
}

=== FILE: ticket_types.dfy ===
/** Vocabulary of the cinema ticket service: ticket categories, one ticket
    request, the fixed prices and seat limit, the reasons a purchase is
    refused and the calls made on the payment and reservation collaborators.
 */
module TicketTypes {

  /** The three values of TicketTypeRequest.Type. */
  datatype Category = Adult | Child | Infant

  /** One element of the request array: a category and a signed quantity,
      as received from the caller (it may be negative). */
  datatype TicketRequest = TicketRequest(kind: Category, quantity: int)

  const AdultPrice: int := 20
  const ChildPrice: int := 10
  /** Largest number of chargeable (adult and child) seats a service may hold. */
  const MaxLimit: int := 20

  /** The price of one ticket of category `c`; infants are free. */
  function Price(c: Category): int
  {
    match c
    case Adult => AdultPrice
    case Child => ChildPrice
    case Infant => 0
  }

  /** True when no request carries a negative quantity. */
  predicate NoNegative(reqs: seq<TicketRequest>)
  {
    forall i :: 0 <= i < |reqs| ==> reqs[i].quantity >= 0
  }

  /** Why a purchase was refused. Every refusal of the service is one
      InvalidPurchaseException; each constructor stands for one of its
      messages and keeps the numbers that message reports. */
  datatype Reason =
    | InvalidQuantity(types: seq<Category>)  // categories of the negative requests, in input order
    | LimitExceeded(exceededBy: int)         // seat counter above the limit, and by how much
    | AdultRequired                          // only adult entries, and they add up to at most 0
    | AdultMissing                           // child or infant entries without any adult entry
    | InfantAdultMismatch                    // all three categories present, fewer adults than infants
    | AddAdults(n: int)                      // adult and infant present, n more adults needed
    | InvalidAccount                         // account id not positive

  /** Result of one validation step. */
  datatype Check = Pass | Reject(reason: Reason)

  /** A call made on a collaborator: TicketPaymentService.makePayment or
      SeatReservationService.reserveSeat. */
  datatype Call =
    | MakePayment(accountId: int, amount: int)
    | ReserveSeat(accountId: int, seats: int)

  /** Result of one purchase: refused with a reason, or completed with the
      collaborator calls it made, in order. */
  datatype Outcome = Rejected(reason: Reason) | Completed(calls: seq<Call>)

  /** The collaborator calls a purchase made; a refused purchase made none. */
  function Calls(o: Outcome): seq<Call>
  {
    if o.Completed? then o.calls else []
  }
}
